=== FILE: README.md ===
# User queries over an in-memory list

A model of `UserService` and `User` from the syntax-comparison example. `UserService`
answers six questions about an ordered list of users:

- the first user named "John";
- whether any user is an admin;
- the usernames of the admins;
- whether any user's role is named exactly "bar";
- the roles of non-admins whose role name contains "foo";
- the groups of admins whose group name starts with "c".

Each question is written four times: as hand-written loops (`Java5`), as Guava
`Collections2`/`Iterables` calls, as a Guava `FluentIterable` chain and as a Java 8
stream. `User` is a plain mutable bean with four fields, each with a getter and a setter.

The model has these modules:

- `Wrappers` (`wrappers.dfy`): `Option`. It stands for Guava's and Java's `Optional`, and for the `null` the loop returns.
- `Strings` (`strings.dfy`): `startsWith` and `contains` on character sequences, each tied to a plain definition (the prefix relation; "occurs at some index").
- `Pipeline` (`pipeline.dfy`): the observable results of the library primitives: filter, map, concat, flat-map, first match, find-first and any-match. It also has `SearchLength`, the number of elements a short-circuiting search tests.
- `Entities` (`entities.dfy`): `Role`, `Group` and `User` as values, plus the predicates and extractors `UserService` defines at its end (`isAdmin`, `toRole`, `withUsername`, ...).
- `Queries` (`queries.dfy`): the library pipelines, one function per distinct composition. Lemmas show the differently composed variants agree, and state what each query returns.
- `Java5` (`java5.dfy`): the loops as methods. Each is proved equal to its pipeline in `Queries`. The three searches also report, in a ghost counter, how many users they tested.
- `Bean` (`bean.dfy`): the `User` class with its fields, getters and setters.

The `Guava` and `Guava_Fluent` variants compose the primitives the same way for every
query except `adminCGroups`, so they share one function each for the other five. The `Java8` variant composes `findJohn`, `anyAdmins`
and `anyRoleBarUsers` differently (`filter(...).findFirst()` and `anyMatch` instead of
`tryFind(...).isPresent()`), and Guava's `adminCGroups` flattens with `Iterables.concat`
instead of `transformAndConcat`. Each of these is a separate function with a lemma that
it agrees. The `Java5` methods equal the `Queries` functions, so all four variants
give the same answer on every input without `null`s.

The comment at `UserService.java:114` says "non-admin", but line 115 tests
`isAdmin()`. The model follows the code: only admins' groups are collected. The
class comment at `UserService.java:17-26` lists six use cases, and all six are modelled.

## Model

| member | source | states |
|---|---|---|
| Strings.StartsWithIsPrefix | src/main/java/com/squid314/examples/collections/UserService.java:406-413 | the character-by-character `startsWith` holds exactly when the prefix is a prefix of the name |
| Strings.ContainsIff | src/main/java/com/squid314/examples/collections/UserService.java:421-428 | `contains(s)` holds exactly when `s` occurs at some index of the name |
| Strings.StartsWith | src/main/java/com/squid314/examples/collections/UserService.java:410 | `String.startsWith`, character by character; characterized by StartsWithIsPrefix |
| Strings.Contains | src/main/java/com/squid314/examples/collections/UserService.java:425 | `String.contains`: the substring starts here or further on; characterized by ContainsIff |
| Strings.FoobarContainsFoo | src/main/java/com/squid314/examples/collections/UserService.java:97 | "foobar" and "foo" contain "foo"; "baz" does not |
| Pipeline.Not | src/main/java/com/squid314/examples/collections/UserService.java:192 | `Predicates.not(p)`: holds exactly when `p` does not; used by NonAdminFooRoles and proved through NonAdminFooRolesMembership |
| Pipeline.Filter | src/main/java/com/squid314/examples/collections/UserService.java:170 | a filtered list is no longer than its source |
| Pipeline.FilterMembership | src/main/java/com/squid314/examples/collections/UserService.java:192 | an element is in the filtered list exactly when it is in the source and passes |
| Pipeline.FilterAppend | src/main/java/com/squid314/examples/collections/UserService.java:192-196 | filtering keeps source order: filtering a concatenation is concatenating the filtered parts |
| Pipeline.FilterStep | src/main/java/com/squid314/examples/collections/UserService.java:117-123 | extending a prefix by one element extends the filtered prefix by that element exactly when it passes |
| Pipeline.FilterMultiplicity | src/main/java/com/squid314/examples/collections/UserService.java:196 | an element that passes occurs in the result as often as in the source (duplicates kept); others not at all |
| Pipeline.Map | src/main/java/com/squid314/examples/collections/UserService.java:171 | `transform` has the source's length and its i-th element is the function applied to the source's i-th element |
| Pipeline.MapAppend | src/main/java/com/squid314/examples/collections/UserService.java:240-243 | mapping a concatenation is concatenating the mapped parts |
| Pipeline.MapMembership | src/main/java/com/squid314/examples/collections/UserService.java:175-176 | a value is in a mapped list exactly when it is the image of some source element |
| Pipeline.MapFilterMembership | src/main/java/com/squid314/examples/collections/UserService.java:308-314 | a value is in map-after-filter exactly when it is the image of some passing element |
| Pipeline.FilterMapFilterMembership | src/main/java/com/squid314/examples/collections/UserService.java:329-335 | a value is in filter-map-filter exactly when it passes the last filter and is the image of an element passing the first |
| Pipeline.Flatten | src/main/java/com/squid314/examples/collections/UserService.java:203 | `Iterables.concat` is at least as long as each inner list |
| Pipeline.FlattenAppend | src/main/java/com/squid314/examples/collections/UserService.java:203 | `Iterables.concat` keeps order: flattening a concatenation joins the flattened parts |
| Pipeline.FlattenOne | src/main/java/com/squid314/examples/collections/UserService.java:203 | a single inner list flattens to itself |
| Pipeline.FlatMap | src/main/java/com/squid314/examples/collections/UserService.java:270 | `transformAndConcat`/`flatMap`; characterized by FlatMapIsFlattenMap, FlatMapAppend and FlatMapMembership |
| Pipeline.FlatMapIsFlattenMap | src/main/java/com/squid314/examples/collections/UserService.java:201-203 | flat-mapping equals flattening the mapped lists, empty expansions included |
| Pipeline.FlatMapAppend | src/main/java/com/squid314/examples/collections/UserService.java:270 | flat-mapping a concatenation is concatenating the flat-mapped parts |
| Pipeline.FlatMapMembership | src/main/java/com/squid314/examples/collections/UserService.java:341 | a value is in a flat-map exactly when it is at some position of some element's expansion |
| Pipeline.FilterFlatMapFilterMembership | src/main/java/com/squid314/examples/collections/UserService.java:339-343 | a value is in filter-flatMap-filter exactly when it passes the last filter and is in the expansion of an element passing the first |
| Pipeline.FilterFlatMap | src/main/java/com/squid314/examples/collections/UserService.java:115-123 | filtering after a flat-map equals flat-mapping each element to its filtered expansion |
| Pipeline.FindIndex | src/main/java/com/squid314/examples/collections/UserService.java:42-49 | the index found holds a match and no earlier index does; no index means no element matches |
| Pipeline.FirstMatch | src/main/java/com/squid314/examples/collections/UserService.java:159-162 | `tryFind`/`firstMatch` returns a matching element with no match before it, and is empty exactly when nothing matches |
| Pipeline.First | src/main/java/com/squid314/examples/collections/UserService.java:299 | `findFirst`/`first()`: the head, if any; tied to FirstMatch by FirstOfFilter |
| Pipeline.FirstOfFilter | src/main/java/com/squid314/examples/collections/UserService.java:229-231 | `filter(p).first()` / `findFirst` gives the same result as `firstMatch(p)` |
| Pipeline.AnyMatch | src/main/java/com/squid314/examples/collections/UserService.java:304 | `anyMatch`: some element satisfies the predicate; tied to FirstMatch by AnyMatchIsPresent |
| Pipeline.AnyMatchIsPresent | src/main/java/com/squid314/examples/collections/UserService.java:302-304 | `anyMatch` answers the same as `tryFind(...).isPresent()` |
| Pipeline.SearchLength | src/main/java/com/squid314/examples/collections/UserService.java:160 | a short-circuit search tests at most all elements, none of those before the last one tested match, and it stops early only at a match |
| Pipeline.ShortCircuit | src/main/java/com/squid314/examples/collections/UserService.java:44-48 | once a match is found, replacing everything after the tested elements cannot change the result |
| Entities.IsAdmin | src/main/java/com/squid314/examples/collections/UserService.java:351-356 | the `isAdmin` predicate reads the user's admin flag; used by every admin filter, see AnyAdmins and AdminUsernamesMembership |
| Entities.ToRole | src/main/java/com/squid314/examples/collections/UserService.java:358-363 | `toRole` extracts the user's role; see NonAdminFooRolesMembership |
| Entities.ToGroups | src/main/java/com/squid314/examples/collections/UserService.java:365-370 | `toGroups` extracts the user's groups in order; see AdminCGroupsMembership |
| Entities.ToUsername | src/main/java/com/squid314/examples/collections/UserService.java:372-377 | `toUsername` extracts the login name; see AdminUsernamesMembership |
| Entities.RoleToName | src/main/java/com/squid314/examples/collections/UserService.java:378-383 | `roleToName` extracts the role's name; see RoleNames |
| Entities.WithUsername | src/main/java/com/squid314/examples/collections/UserService.java:391-398 | `withUsername(name)` holds exactly when the login name equals `name`; see FindJohn |
| Entities.NameStartsWith | src/main/java/com/squid314/examples/collections/UserService.java:406-413 | `startsWith(prefix)` on a group's name; see AdminCGroups |
| Entities.NameContains | src/main/java/com/squid314/examples/collections/UserService.java:421-428 | `contains(s)` on a role's name; see NonAdminFooRolesMembership |
| Queries.IsCGroup | src/main/java/com/squid314/examples/collections/UserService.java:204 | the predicate `startsWith("c")` |
| Queries.IsFooRole | src/main/java/com/squid314/examples/collections/UserService.java:196 | the predicate `contains("foo")` |
| Queries.IsBar | src/main/java/com/squid314/examples/collections/UserService.java:178-183 | the inline `isBar`: the role name equals "bar" exactly |
| Queries.IsBarIsExact | src/main/java/com/squid314/examples/collections/UserService.java:81 | the `equals("bar")` test is exact: a role named "foobar" fails it and one named "bar" passes |
| Queries.FindJohn | src/main/java/com/squid314/examples/collections/UserService.java:159-162 | the result is a user named "John" with no "John" before it (the first, not the last); it is empty exactly when nobody is named "John" |
| Queries.FindJohnStream | src/main/java/com/squid314/examples/collections/UserService.java:291-300 | the stream `filter(...).findFirst()`; equal to FindJohn by FindJohnVariantsAgree |
| Queries.FindJohnVariantsAgree | src/main/java/com/squid314/examples/collections/UserService.java:291-299 | the stream `filter(...).findFirst()` finds the same user as `tryFind`/`firstMatch` |
| Queries.AnyAdmins | src/main/java/com/squid314/examples/collections/UserService.java:164-167 | "first admin is present" is true exactly when some user is an admin |
| Queries.AnyAdminsStream | src/main/java/com/squid314/examples/collections/UserService.java:302-305 | the stream `anyMatch(user -> user.isAdmin())`; equal to AnyAdmins by AnyAdminsVariantsAgree |
| Queries.AnyAdminsVariantsAgree | src/main/java/com/squid314/examples/collections/UserService.java:302-305 | the stream `anyMatch` agrees with `firstMatch(isAdmin).isPresent()` |
| Queries.AdminUsernames | src/main/java/com/squid314/examples/collections/UserService.java:169-172 | there are at most as many admin usernames as users |
| Queries.AdminUsernamesMembership | src/main/java/com/squid314/examples/collections/UserService.java:238-244 | a name is collected exactly when some admin user has it |
| Queries.AdminUsernamesAppend | src/main/java/com/squid314/examples/collections/UserService.java:307-315 | the usernames come in input order: those of a concatenation are those of each part, in turn |
| Queries.AdminUsernamesOne | src/main/java/com/squid314/examples/collections/UserService.java:71-73 | a single user contributes its username exactly when it is an admin |
| Queries.AdminUsernamesStep | src/main/java/com/squid314/examples/collections/UserService.java:70-74 | one more user extends the usernames by that user's contribution |
| Queries.RoleNames | src/main/java/com/squid314/examples/collections/UserService.java:175-176 | the role names have the users' length, and the i-th is the i-th user's role name |
| Queries.AnyRoleBarUsers | src/main/java/com/squid314/examples/collections/UserService.java:174-185 | true exactly when some user's role name equals "bar" |
| Queries.AnyRoleBarUsersStream | src/main/java/com/squid314/examples/collections/UserService.java:317-326 | the stream `map(User::getRole).map(Role::getName).anyMatch("bar"::equals)`; equal to AnyRoleBarUsers by AnyRoleBarUsersVariantsAgree |
| Queries.AnyRoleBarUsersVariantsAgree | src/main/java/com/squid314/examples/collections/UserService.java:317-326 | the stream `map(...).map(...).anyMatch("bar"::equals)` agrees with the Guava chain |
| Queries.NonAdminFooRoles | src/main/java/com/squid314/examples/collections/UserService.java:187-197 | there are at most as many roles as users |
| Queries.NonAdminFooRolesMembership | src/main/java/com/squid314/examples/collections/UserService.java:259-265 | a role is collected exactly when its name contains "foo" and some non-admin user has it |
| Queries.NonAdminFooRolesAppend | src/main/java/com/squid314/examples/collections/UserService.java:328-336 | roles come in input order with duplicates kept: those of a concatenation are those of each part, in turn |
| Queries.NonAdminFooRolesOne | src/main/java/com/squid314/examples/collections/UserService.java:95-101 | a single user contributes its role exactly when it is not an admin and its role name contains "foo" |
| Queries.NonAdminFooRolesStep | src/main/java/com/squid314/examples/collections/UserService.java:93-102 | one more user extends the roles by that user's contribution |
| Queries.AdminCGroups | src/main/java/com/squid314/examples/collections/UserService.java:267-273 | every collected group's name starts with "c"; its exact contents, order and duplicates are given by AdminCGroupsMembership, AdminCGroupsAppend and AdminCGroupsOne |
| Queries.AdminCGroupsMembership | src/main/java/com/squid314/examples/collections/UserService.java:267-273 | a group is collected exactly when its name starts with "c" and it is one of some admin's groups |
| Queries.AdminCGroupsConcat | src/main/java/com/squid314/examples/collections/UserService.java:199-205 | Guava's `filter(concat(transform(filter(users, isAdmin), toGroups)), startsWith("c"))`; equal to AdminCGroups by AdminCGroupsVariantsAgree |
| Queries.AdminCGroupsVariantsAgree | src/main/java/com/squid314/examples/collections/UserService.java:199-205 | Guava's `concat(transform(...))` then filter equals the `transformAndConcat`/`flatMap` chain |
| Queries.CGroupsOf | src/main/java/com/squid314/examples/collections/UserService.java:117-123 | one user's groups whose name starts with "c", in order; see AdminCGroupsPerUser |
| Queries.AdminCGroupsPerUser | src/main/java/com/squid314/examples/collections/UserService.java:338-344 | the groups come in user order, then group order within each admin: flatten-then-filter equals filtering each admin's groups and joining |
| Queries.AdminCGroupsAppend | src/main/java/com/squid314/examples/collections/UserService.java:267-272 | the groups of a concatenation are those of each part, in turn (duplicates kept) |
| Queries.AdminCGroupsOne | src/main/java/com/squid314/examples/collections/UserService.java:115-124 | a single user contributes its "c" groups, in order, exactly when it is an admin |
| Queries.AdminCGroupsStep | src/main/java/com/squid314/examples/collections/UserService.java:113-125 | one more user extends the groups by that user's contribution |
| Queries.EmptyInput | src/main/java/com/squid314/examples/collections/UserService.java:68-76 | on an empty list nothing is found, both tests are false and every collection is empty |
| Queries.ExampleFindJohn | src/main/java/com/squid314/examples/collections/UserService.java:227-231 | for [Alice, John] the search returns John |
| Queries.ExampleTests | src/main/java/com/squid314/examples/collections/UserService.java:234-257 | for [Alice, John] there is an admin, and no role is named exactly "bar" ("foobar" does not count) |
| Queries.ExampleAdminUsernames | src/main/java/com/squid314/examples/collections/UserService.java:240-243 | for [Alice, John] the admin usernames are ["John"] |
| Queries.ExampleNonAdminFooRoles | src/main/java/com/squid314/examples/collections/UserService.java:260-264 | for [Alice, John] the result is Alice's role "foobar" |
| Queries.ExampleAdminCGroups | src/main/java/com/squid314/examples/collections/UserService.java:268-272 | for [Alice, John] the result is John's group "core" and not "dev" |
| Java5.FindJohn | src/main/java/com/squid314/examples/collections/UserService.java:41-56 | the loop returns what `tryFind(withUsername("John"))` returns, after testing exactly the users up to and including the first "John" |
| Java5.AnyAdmins | src/main/java/com/squid314/examples/collections/UserService.java:58-65 | the loop returns "first admin is present", after testing exactly the users up to and including the first admin |
| Java5.AdminUsernames | src/main/java/com/squid314/examples/collections/UserService.java:67-77 | the list built by the loop equals the filter/transform pipeline |
| Java5.AnyRoleBarUsers | src/main/java/com/squid314/examples/collections/UserService.java:79-86 | the loop returns the Guava chain's answer, after testing exactly the role names up to and including the first "bar" |
| Java5.NonAdminFooRoles | src/main/java/com/squid314/examples/collections/UserService.java:88-106 | the list built by the loop equals the filter/transform/filter pipeline |
| Java5.AdminCGroups | src/main/java/com/squid314/examples/collections/UserService.java:108-129 | the list built by the nested loops equals the filter/flat-map/filter pipeline |
| Bean.User.GetUsername | src/main/java/com/squid314/examples/collections/User.java:16-18 | returns the `username` field and changes nothing |
| Bean.User.SetUsername | src/main/java/com/squid314/examples/collections/User.java:20-22 | afterwards `username` is the argument and the other three fields are unchanged |
| Bean.User.IsAdmin | src/main/java/com/squid314/examples/collections/User.java:24-26 | returns the `admin` field and changes nothing |
| Bean.User.SetAdmin | src/main/java/com/squid314/examples/collections/User.java:28-30 | afterwards `admin` is the argument and the other three fields are unchanged |
| Bean.User.GetRole | src/main/java/com/squid314/examples/collections/User.java:32-34 | returns the `role` field and changes nothing |
| Bean.User.SetRole | src/main/java/com/squid314/examples/collections/User.java:36-38 | afterwards `role` is the argument and the other three fields are unchanged |
| Bean.User.GetGroups | src/main/java/com/squid314/examples/collections/User.java:40-42 | returns the `groups` field and changes nothing |
| Bean.User.SetGroups | src/main/java/com/squid314/examples/collections/User.java:44-46 | afterwards `groups` is the argument and the other three fields are unchanged |
| Bean.Populate | src/main/java/com/squid314/examples/collections/User.java:16-46 | after all four setters, the four getters return exactly the values set, and its `Snapshot()` is that value |

## Left out

- Null: usernames, roles, role and group names, group lists and list elements are never `null`. With `null`s the source's variants disagree, and the model does not capture where:
  - A `null` role fails at the name dereference: `UserService.java:81` and `97` (loops), `381` and `425` (Guava), `320` and `334` (streams; `map(User::getRole)` at `319` only passes the `null` on). A `null` group list fails in the loop (`117`), when Guava's `Iterables.concat` iterates it (`203`), in `transformAndConcat` (`270`) and at `user.getGroups().stream()` (`341`).
  - For an admin with a `null` username, the loop (`72`), Guava (`171`) and the stream (`314`) return a list holding `null`, while `FluentIterable.toList()` (`243`) rejects it and fails.
  - For a `null` role name, the loop (`81`) and both Guava chains (`181`, `250`) fail, while the stream's `"bar"::equals` (`325`) answers false and goes on.
- Laziness: the three collection results of the `Guava` variant are lazy, live views: `Collections2.transform` in `adminUsernames` (`UserService.java:171`), `Collections2.filter` in `nonAdminFooRoles` (`196`) and `Iterables.filter` in `adminCGroups` (`204`). The model gives their contents at the moment of the call. What they yield after a later change to the list, or after a later `setAdmin`, `setRole` or `setGroups` on one of its users, is not captured. The other results do not change this way: the `Java5` loops build a fresh `ArrayList`, `Guava_Fluent` copies with `toList()` (`243`, `264`, `272`), and every `Java8` method ends in a terminal operation (`findFirst` at `299`, `anyMatch` at `304` and `325`, `collect` at `314`, `335` and `343`).
- Short-circuiting: the model counts the elements a search tests (`SearchLength`, and the `tested` counter of the `Java5` searches). It does not count predicate calls inside Guava or the stream library.
- Identity: entities are values compared by value, not by reference. "Duplicates kept" is a statement about how often an element occurs in the result. Two users with equal fields cannot be told apart.
- Aliasing: `User.groups` is an ordered value, not a shared mutable `List<Group>`.
- `Role.java` and `Group.java` are not part of this model. Each is a value with a `name`, read through `getName()`.
- Default construction: the bean's implicit no-argument constructor, which leaves its fields `null`, is not modelled. `Bean.User` has no constructor.
- `"Jo" + "hn"` at `UserService.java:294-296` builds the literal "John", which the model uses directly.
- Guava's `Optional` and `java.util.Optional` are both `Option`; the loop's `null` is `None`.
- Characters: a Dafny `string` is a sequence of Unicode scalar values, while a Java `String` is a sequence of UTF-16 code units, so lone surrogates cannot be represented. Against the ASCII literals the queries use ("John", "bar", "foo", "c"), `equals`, `startsWith` and `contains` give the same answers.

=== FILE: bean.dfy ===
/** The mutable `User` bean: four private fields, each with a getter and a
    setter. A setter changes its own field and no other; a getter changes
    nothing (it has no `modifies` clause). */
module Bean {
  import Entities

  class User {
    /** the user's login name */
    var username: string
    /** whether the user is an admin */
    var admin: bool
    /** the role the user serves */
    var role: Entities.Role
    /** the groups the user belongs to, in order */
    var groups: seq<Entities.Group>

    /** The value the queries read from this bean. */
    function Snapshot(): Entities.User
      reads this
    {
      Entities.User(username, admin, role, groups)
    }

    method GetUsername() returns (u: string)
      ensures u == username
    {
      u := username;
    }

    method SetUsername(username: string)
      modifies this`username
      ensures this.username == username
      ensures Snapshot() == old(Snapshot()).(username := username)
    {
      this.username := username;
    }

    method IsAdmin() returns (b: bool)
      ensures b == admin
    {
      b := admin;
    }

    method SetAdmin(admin: bool)
      modifies this`admin
      ensures this.admin == admin
      ensures Snapshot() == old(Snapshot()).(admin := admin)
    {
      this.admin := admin;
    }

    method GetRole() returns (r: Entities.Role)
      ensures r == role
    {
      r := role;
    }

    method SetRole(role: Entities.Role)
      modifies this`role
      ensures this.role == role
      ensures Snapshot() == old(Snapshot()).(role := role)
    {
      this.role := role;
    }

    method GetGroups() returns (g: seq<Entities.Group>)
      ensures g == groups
    {
      g := groups;
    }

    method SetGroups(groups: seq<Entities.Group>)
      modifies this`groups
      ensures this.groups == groups
      ensures Snapshot() == old(Snapshot()).(groups := groups)
    {
      this.groups := groups;
    }
  }

  /** A caller that fills in a bean through its setters and reads it back
      through its getters gets back exactly what it set, and the query layer
      then sees that value. */
  method Populate(user: User, name: string, admin: bool, role: Entities.Role, groups: seq<Entities.Group>)
    returns (got: Entities.User)
    modifies user
    ensures got == Entities.User(name, admin, role, groups)
    ensures user.Snapshot() == got
  {
    user.SetUsername(name);
    user.SetAdmin(admin);
    user.SetRole(role);
    user.SetGroups(groups);
    var n := user.GetUsername();
    var a := user.IsAdmin();
    var r := user.GetRole();
    var g := user.GetGroups();
    got := Entities.User(n, a, r, g);
  }
}

=== FILE: entities.dfy ===
/** The three entity shapes the queries read, as values, and the small
    predicates and extractors `UserService` builds its pipelines from. */
module Entities {
  import Strings

  datatype Role = Role(name: string)

  datatype Group = Group(name: string)

  /** What a query sees of a user: its login name, whether it is an admin,
      its one role and its groups in order. */
  datatype User = User(username: string, admin: bool, role: Role, groups: seq<Group>)

  /** The `isAdmin` predicate. */
  predicate IsAdmin(u: User)
  {
    u.admin
  }

  /** The `toRole` function. */
  function ToRole(u: User): Role
  {
    u.role
  }

  /** The `toGroups` function. */
  function ToGroups(u: User): seq<Group>
  {
    u.groups
  }

  /** The `toUsername` function. */
  function ToUsername(u: User): string
  {
    u.username
  }

  /** The `roleToName` function. */
  function RoleToName(r: Role): string
  {
    r.name
  }

  /** `withUsername(name)`: the user's login name equals `name`. */
  function WithUsername(name: string): User -> bool
  {
    (u: User) => u.username == name
  }

  /** `startsWith(prefix)`: the group's name starts with `prefix`. */
  function NameStartsWith(prefix: string): Group -> bool
  {
    (g: Group) => Strings.StartsWith(g.name, prefix)
  }

  /** `contains(s)`: the role's name contains `s`. */
  function NameContains(s: string): Role -> bool
  {
    (r: Role) => Strings.Contains(r.name, s)
  }
}

=== FILE: java5.dfy ===
/** The hand-written `Java5` loops: one pass over the list, returning early
    for the searches and appending to a result list for the collections.
    Each method is proved to compute the same value as the library pipeline
    in module Queries. The searches also count, in a ghost counter, how many
    users their test was applied to. */
module Java5 {
  import opened Wrappers
  import opened Pipeline
  import opened Entities
  import Strings
  import Queries

  /** `findJohn`: returns at the first user named "John", so no later user is
      tested and a later "John" is never returned; `None` stands for `null`. */
  method FindJohn(users: seq<User>) returns (r: Option<User>, ghost tested: nat)
    ensures r == Queries.FindJohn(users)
    ensures tested == SearchLength(users, WithUsername("John"))
  {
    tested := 0;
    for i := 0 to |users|
      invariant tested == i
      invariant forall j :: 0 <= j < i ==> users[j].username != "John"
    {
      var user := users[i];
      tested := tested + 1;
      if user.username == "John" {
        assert WithUsername("John")(users[i]);
        assert FindIndex(users, WithUsername("John")) == Some(i);
        return Some(user), tested;
      }
    }
    return None, tested;
  }

  /** `anyAdmins`: true at the first admin, false after testing everyone. */
  method AnyAdmins(users: seq<User>) returns (r: bool, ghost tested: nat)
    ensures r == Queries.AnyAdmins(users)
    ensures tested == SearchLength(users, IsAdmin)
  {
    tested := 0;
    for i := 0 to |users|
      invariant tested == i
      invariant forall j :: 0 <= j < i ==> !users[j].admin
    {
      var user := users[i];
      tested := tested + 1;
      if user.admin {
        assert FindIndex(users, IsAdmin) == Some(i);
        return true, tested;
      }
    }
    return false, tested;
  }

  /** `adminUsernames`: appends each admin's username to the result. */
  method AdminUsernames(users: seq<User>) returns (result: seq<string>)
    ensures result == Queries.AdminUsernames(users)
  {
    result := [];
    for i := 0 to |users|
      invariant result == Queries.AdminUsernames(users[..i])
    {
      var user := users[i];
      if user.admin {
        result := result + [user.username];
      }
      Queries.AdminUsernamesStep(users, i);
    }
    assert users[..|users|] == users;
  }

  /** `anyRoleBarUsers`: true at the first user whose role name equals "bar". */
  method AnyRoleBarUsers(users: seq<User>) returns (r: bool, ghost tested: nat)
    ensures r == Queries.AnyRoleBarUsers(users)
    ensures tested == SearchLength(Queries.RoleNames(users), Queries.IsBar)
  {
    ghost var names := Queries.RoleNames(users);
    tested := 0;
    for i := 0 to |users|
      invariant tested == i
      invariant forall j :: 0 <= j < i ==> users[j].role.name != "bar"
    {
      var user := users[i];
      tested := tested + 1;
      if user.role.name == "bar" {
        assert FindIndex(names, Queries.IsBar) == Some(i);
        return true, tested;
      }
    }
    return false, tested;
  }

  /** `nonAdminFooRoles`: appends the role of each non-admin whose role name
      contains "foo". */
  method NonAdminFooRoles(users: seq<User>) returns (resultRoles: seq<Role>)
    ensures resultRoles == Queries.NonAdminFooRoles(users)
  {
    resultRoles := [];
    for i := 0 to |users|
      invariant resultRoles == Queries.NonAdminFooRoles(users[..i])
    {
      var user := users[i];
      if !user.admin {
        if Strings.Contains(user.role.name, "foo") {
          resultRoles := resultRoles + [user.role];
        }
      }
      Queries.NonAdminFooRolesStep(users, i);
    }
    assert users[..|users|] == users;
  }

  /** `adminCGroups`: for each admin, appends each of its groups whose name
      starts with "c", in group order. */
  method AdminCGroups(users: seq<User>) returns (resultGroups: seq<Group>)
    ensures resultGroups == Queries.AdminCGroups(users)
  {
    resultGroups := [];
    for i := 0 to |users|
      invariant resultGroups == Queries.AdminCGroups(users[..i])
    {
      var user := users[i];
      ghost var before := resultGroups;
      if user.admin {
        var groups := user.groups;
        for j := 0 to |groups|
          invariant resultGroups == before + Filter(groups[..j], Queries.IsCGroup)
        {
          var group := groups[j];
          if Strings.StartsWith(group.name, "c") {
            resultGroups := resultGroups + [group];
          }
          assert Queries.IsCGroup(group) == Strings.StartsWith(group.name, "c");
          FilterStep(groups, j, Queries.IsCGroup);
        }
        assert groups[..|groups|] == groups;
      }
      Queries.AdminCGroupsStep(users, i);
    }
    assert users[..|users|] == users;
  }
}

=== FILE: pipeline.dfy ===
/** The query primitives the library variants compose: the observable results
    of Guava's `Collections2`/`Iterables`/`FluentIterable` operations and of
    `java.util.stream`, as functions over finite ordered sequences. A lazy view
    followed by a copy into a list (`toList`, `collect`) is the sequence itself. */
module Pipeline {
  import opened Wrappers

  /** `Predicates.not(p)`. */
  function Not<T>(p: T -> bool): T -> bool
  {
    x => !p(x)
  }

  /** `filter`: the elements of `s` that satisfy `p`, in the order of `s`. */
  function Filter<T>(s: seq<T>, p: T -> bool): (r: seq<T>)
    ensures |r| <= |s|
  {
    if s == [] then [] else (if p(s[0]) then [s[0]] else []) + Filter(s[1..], p)
  }

  /** An element is kept exactly when it is in `s` and satisfies `p`. */
  lemma {:induction false} FilterMembership<T>(s: seq<T>, p: T -> bool, x: T)
    ensures x in Filter(s, p) <==> x in s && p(x)
  {
    if s != [] {
      FilterMembership(s[1..], p, x);
      assert s == [s[0]] + s[1..];
    }
  }

  /** Filtering a concatenation filters each part and keeps the parts in order. */
  lemma {:induction false} FilterAppend<T>(a: seq<T>, b: seq<T>, p: T -> bool)
    ensures Filter(a + b, p) == Filter(a, p) + Filter(b, p)
  {
    if a == [] {
      assert a + b == b;
    } else {
      var head := if p(a[0]) then [a[0]] else [];
      assert (a + b)[0] == a[0];
      assert (a + b)[1..] == a[1..] + b;
      FilterAppend(a[1..], b, p);
      calc {
        Filter(a + b, p);
        head + Filter(a[1..] + b, p);
        head + (Filter(a[1..], p) + Filter(b, p));
        (head + Filter(a[1..], p)) + Filter(b, p);
        Filter(a, p) + Filter(b, p);
      }
    }
  }

  /** Extending `s[..j]` by one element extends the filtered prefix by that
      element exactly when it satisfies `p`. */
  lemma FilterStep<T>(s: seq<T>, j: nat, p: T -> bool)
    requires j < |s|
    ensures Filter(s[..j + 1], p) == Filter(s[..j], p) + (if p(s[j]) then [s[j]] else [])
  {
    assert s[..j + 1] == s[..j] + [s[j]];
    FilterAppend(s[..j], [s[j]], p);
  }

  /** Every element that satisfies `p` is kept as often as it occurs in `s`
      (duplicates are preserved); every other element is dropped. */
  lemma {:induction false} FilterMultiplicity<T>(s: seq<T>, p: T -> bool, x: T)
    ensures multiset(Filter(s, p))[x] == if p(x) then multiset(s)[x] else 0
  {
    if s != [] {
      FilterMultiplicity(s[1..], p, x);
      assert s == [s[0]] + s[1..];
      assert multiset(s) == multiset([s[0]]) + multiset(s[1..]);
    }
  }

  /** `transform` / `map`: `f` applied to every element, in order. */
  function Map<T, U>(s: seq<T>, f: T -> U): (r: seq<U>)
    ensures |r| == |s|
    ensures forall i :: 0 <= i < |s| ==> r[i] == f(s[i])
  {
    if s == [] then [] else [f(s[0])] + Map(s[1..], f)
  }

  /** Mapping a concatenation maps each part. */
  lemma MapAppend<T, U>(a: seq<T>, b: seq<T>, f: T -> U)
    ensures Map(a + b, f) == Map(a, f) + Map(b, f)
  {
    assert forall i :: 0 <= i < |a + b| ==> Map(a + b, f)[i] == (Map(a, f) + Map(b, f))[i];
  }

  /** `y` is produced by `Map` exactly when it is the image of some element. */
  lemma MapMembership<T, U>(s: seq<T>, f: T -> U, y: U)
    ensures y in Map(s, f) <==> exists i :: 0 <= i < |s| && f(s[i]) == y
  {
    if y in Map(s, f) {
      var k :| 0 <= k < |s| && Map(s, f)[k] == y;
      assert f(s[k]) == y;
    }
    if exists i :: 0 <= i < |s| && f(s[i]) == y {
      var k :| 0 <= k < |s| && f(s[k]) == y;
      assert Map(s, f)[k] == y;
    }
  }

  /** `y` is produced by mapping the elements that satisfy `p` exactly when
      it is the image of one of them. */
  lemma {:induction false} MapFilterMembership<T, U>(s: seq<T>, p: T -> bool, f: T -> U, y: U)
    ensures y in Map(Filter(s, p), f) <==> exists i :: 0 <= i < |s| && p(s[i]) && f(s[i]) == y
  {
    var kept := Filter(s, p);
    MapMembership(kept, f, y);
    if exists i :: 0 <= i < |s| && p(s[i]) && f(s[i]) == y {
      var i :| 0 <= i < |s| && p(s[i]) && f(s[i]) == y;
      FilterMembership(s, p, s[i]);
      var k :| 0 <= k < |kept| && kept[k] == s[i];
      assert f(kept[k]) == y;
    }
    if y in Map(kept, f) {
      var k :| 0 <= k < |kept| && f(kept[k]) == y;
      FilterMembership(s, p, kept[k]);
      var i :| 0 <= i < |s| && s[i] == kept[k];
      assert p(s[i]);
    }
  }

  /** Membership in a filter-map-filter chain. */
  lemma {:induction false} FilterMapFilterMembership<T, U>(s: seq<T>, p: T -> bool, f: T -> U, q: U -> bool, y: U)
    ensures y in Filter(Map(Filter(s, p), f), q) <==> q(y) && exists i :: 0 <= i < |s| && p(s[i]) && f(s[i]) == y
  {
    var mapped := Map(Filter(s, p), f);
    MapFilterMembership(s, p, f, y);
    FilterMembership(mapped, q, y);
  }

  /** `Iterables.concat`: the inner sequences joined in order. */
  function Flatten<U>(ss: seq<seq<U>>): (r: seq<U>)
    ensures forall i :: 0 <= i < |ss| ==> |ss[i]| <= |r|
  {
    if ss == [] then [] else ss[0] + Flatten(ss[1..])
  }

  /** Flattening a concatenation flattens each part and joins them in order. */
  lemma {:induction false} FlattenAppend<U>(a: seq<seq<U>>, b: seq<seq<U>>)
    ensures Flatten(a + b) == Flatten(a) + Flatten(b)
  {
    if a == [] {
      assert a + b == b;
    } else {
      assert (a + b)[0] == a[0];
      assert (a + b)[1..] == a[1..] + b;
      FlattenAppend(a[1..], b);
      calc {
        Flatten(a + b);
        a[0] + Flatten(a[1..] + b);
        a[0] + (Flatten(a[1..]) + Flatten(b));
        (a[0] + Flatten(a[1..])) + Flatten(b);
        Flatten(a) + Flatten(b);
      }
    }
  }

  /** A single inner sequence flattens to itself. */
  lemma FlattenOne<U>(x: seq<U>)
    ensures Flatten([x]) == x
  {
    assert [x][1..] == [];
    assert x + [] == x;
  }

  /** `transformAndConcat` / `flatMap`: the expansion of each element, in order. */
  function FlatMap<T, U>(s: seq<T>, f: T -> seq<U>): seq<U>
  {
    if s == [] then [] else f(s[0]) + FlatMap(s[1..], f)
  }

  /** A flat-map is the flattening of the mapped sequences. */
  lemma {:induction false} FlatMapIsFlattenMap<T, U>(s: seq<T>, f: T -> seq<U>)
    ensures FlatMap(s, f) == Flatten(Map(s, f))
  {
    if s != [] {
      assert Map(s, f) == [f(s[0])] + Map(s[1..], f);
      assert Map(s, f)[1..] == Map(s[1..], f);
      FlatMapIsFlattenMap(s[1..], f);
    }
  }

  /** Flat-mapping a concatenation flat-maps each part. */
  lemma {:induction false} FlatMapAppend<T, U>(a: seq<T>, b: seq<T>, f: T -> seq<U>)
    ensures FlatMap(a + b, f) == FlatMap(a, f) + FlatMap(b, f)
  {
    if a == [] {
      assert a + b == b;
    } else {
      assert (a + b)[0] == a[0];
      assert (a + b)[1..] == a[1..] + b;
      FlatMapAppend(a[1..], b, f);
    }
  }

  /** `y` is produced by a flat-map exactly when some element expands to it. */
  lemma {:induction false} FlatMapMembership<T, U>(s: seq<T>, f: T -> seq<U>, y: U)
    ensures y in FlatMap(s, f) <==> exists i, j :: 0 <= i < |s| && 0 <= j < |f(s[i])| && f(s[i])[j] == y
  {
    if s != [] {
      FlatMapMembership(s[1..], f, y);
      if y in f(s[0]) {
        var j :| 0 <= j < |f(s[0])| && f(s[0])[j] == y;
        assert 0 <= 0 < |s| && 0 <= j < |f(s[0])| && f(s[0])[j] == y;
      }
      if y in FlatMap(s[1..], f) {
        var i, j :| 0 <= i < |s[1..]| && 0 <= j < |f(s[1..][i])| && f(s[1..][i])[j] == y;
        assert s[1..][i] == s[i + 1];
      }
      if exists i, j :: 0 <= i < |s| && 0 <= j < |f(s[i])| && f(s[i])[j] == y {
        var i, j :| 0 <= i < |s| && 0 <= j < |f(s[i])| && f(s[i])[j] == y;
        if i == 0 {
          assert y in f(s[0]);
        } else {
          assert s[1..][i - 1] == s[i];
          assert 0 <= i - 1 < |s[1..]| && 0 <= j < |f(s[1..][i - 1])| && f(s[1..][i - 1])[j] == y;
        }
      }
    }
  }

  /** Membership in a filter-flat-map-filter chain. */
  lemma {:induction false} FilterFlatMapFilterMembership<T, U>(s: seq<T>, p: T -> bool, f: T -> seq<U>, q: U -> bool, y: U)
    ensures y in Filter(FlatMap(Filter(s, p), f), q) <==>
            q(y) && exists i, j :: 0 <= i < |s| && p(s[i]) && 0 <= j < |f(s[i])| && f(s[i])[j] == y
  {
    var kept := Filter(s, p);
    var joined := FlatMap(kept, f);
    FlatMapMembership(kept, f, y);
    FilterMembership(joined, q, y);
    if exists i, j :: 0 <= i < |s| && p(s[i]) && 0 <= j < |f(s[i])| && f(s[i])[j] == y {
      var i, j :| 0 <= i < |s| && p(s[i]) && 0 <= j < |f(s[i])| && f(s[i])[j] == y;
      FilterMembership(s, p, s[i]);
      var k :| 0 <= k < |kept| && kept[k] == s[i];
      assert 0 <= k < |kept| && 0 <= j < |f(kept[k])| && f(kept[k])[j] == y;
    }
    if y in joined {
      var k, j :| 0 <= k < |kept| && 0 <= j < |f(kept[k])| && f(kept[k])[j] == y;
      FilterMembership(s, p, kept[k]);
      var i :| 0 <= i < |s| && s[i] == kept[k];
      assert p(s[i]) && 0 <= j < |f(s[i])| && f(s[i])[j] == y;
    }
  }

  /** Filtering after a flat-map is flat-mapping each element to its filtered
      expansion, when `g` is that filtered expansion. */
  lemma {:induction false} FilterFlatMap<T, U>(s: seq<T>, f: T -> seq<U>, p: U -> bool, g: T -> seq<U>)
    requires forall x :: g(x) == Filter(f(x), p)
    ensures Filter(FlatMap(s, f), p) == FlatMap(s, g)
  {
    if s != [] {
      FilterAppend(f(s[0]), FlatMap(s[1..], f), p);
      FilterFlatMap(s[1..], f, p, g);
    }
  }

  /** The index of the first element of `s` that satisfies `p`, if any. */
  function FindIndex<T>(s: seq<T>, p: T -> bool): (r: Option<nat>)
    ensures r.Some? ==> r.value < |s| && p(s[r.value]) && forall j :: 0 <= j < r.value ==> !p(s[j])
    ensures r.None? ==> forall j :: 0 <= j < |s| ==> !p(s[j])
  {
    if s == [] then None
    else if p(s[0]) then Some(0)
    else match FindIndex(s[1..], p)
      case None => None
      case Some(k) => Some(k + 1)
  }

  /** `Iterables.tryFind` / `FluentIterable.firstMatch`: the first element of `s`
      that satisfies `p` (never a later one), or `None` when there is none. */
  function FirstMatch<T>(s: seq<T>, p: T -> bool): (r: Option<T>)
    ensures r.Some? ==> exists i :: 0 <= i < |s| && s[i] == r.value && p(s[i]) && forall j :: 0 <= j < i ==> !p(s[j])
    ensures r.None? <==> forall i :: 0 <= i < |s| ==> !p(s[i])
  {
    match FindIndex(s, p)
    case None => None
    case Some(k) => Some(s[k])
  }

  /** `Stream.findFirst` / `FluentIterable.first`: the head of `s`, if any. */
  function First<T>(s: seq<T>): Option<T>
  {
    if s == [] then None else Some(s[0])
  }

  /** The head of the filtered sequence is the first match. */
  lemma {:induction false} FirstOfFilter<T>(s: seq<T>, p: T -> bool)
    ensures First(Filter(s, p)) == FirstMatch(s, p)
  {
    if s != [] && !p(s[0]) {
      FirstOfFilter(s[1..], p);
    }
  }

  /** `Stream.anyMatch`: some element satisfies `p`. */
  predicate AnyMatch<T>(s: seq<T>, p: T -> bool)
  {
    exists i :: 0 <= i < |s| && p(s[i])
  }

  /** `anyMatch` answers the same as `tryFind(...).isPresent()`. */
  lemma AnyMatchIsPresent<T>(s: seq<T>, p: T -> bool)
    ensures AnyMatch(s, p) == FirstMatch(s, p).Some?
  {
  }

  /** How many elements a short-circuiting search for `p` tests: those up to
      and including the first match, or all of them when there is none. */
  function SearchLength<T>(s: seq<T>, p: T -> bool): (n: nat)
    ensures n <= |s|
    ensures forall j :: 0 <= j < n - 1 ==> !p(s[j])
    ensures n < |s| ==> n > 0 && p(s[n - 1])
  {
    match FindIndex(s, p)
    case None => |s|
    case Some(k) => k + 1
  }

  /** The elements after the ones a search tests cannot change its answer:
      once a match is found, whatever follows it is irrelevant. */
  lemma ShortCircuit<T>(s: seq<T>, p: T -> bool, rest: seq<T>)
    requires FirstMatch(s, p).Some?
    ensures FirstMatch(s[..SearchLength(s, p)] + rest, p) == FirstMatch(s, p)
  {
    var k := FindIndex(s, p).value;
    var t := s[..k + 1] + rest;
    assert t[k] == s[k];
    assert forall j :: 0 <= j < k ==> t[j] == s[j];
    assert FindIndex(t, p) == Some(k);
  }
}

=== FILE: queries.dfy ===
/** The six `UserService` queries as the library pipelines compose them
    (`Guava`, `Guava_Fluent`, `Java8`). Where a variant composes the
    primitives differently, it is a function of its own, and a lemma shows it
    gives the same answer. */
module Queries {
  import opened Wrappers
  import opened Pipeline
  import opened Entities
  import Strings

  /** The group predicate `startsWith("c")`. */
  const IsCGroup: Group -> bool := NameStartsWith("c")

  /** The role predicate `contains("foo")`. */
  const IsFooRole: Role -> bool := NameContains("foo")

  /** The inline `isBar` predicate: the role name equals "bar". */
  predicate IsBar(roleName: string)
  {
    roleName == "bar"
  }

  /** The test is exact equality: a "foobar" role name is not "bar",
      although it ends with it. */
  lemma IsBarIsExact()
    ensures !IsBar("foobar") && IsBar("bar")
  {
  }

  // ---------------------------------------------------------------- findJohn

  /** `tryFind(users, withUsername("John"))` / `firstMatch(...)`: the first
      user named "John", not a later one; `None` when there is none. */
  function FindJohn(users: seq<User>): (r: Option<User>)
    ensures r.Some? ==> exists i :: 0 <= i < |users| && users[i] == r.value && users[i].username == "John" &&
                                    forall j :: 0 <= j < i ==> users[j].username != "John"
    ensures r.None? <==> forall i :: 0 <= i < |users| ==> users[i].username != "John"
  {
    FirstMatch(users, WithUsername("John"))
  }

  /** `users.stream().filter(... equals(name)).findFirst()`. */
  function FindJohnStream(users: seq<User>): Option<User>
  {
    First(Filter(users, WithUsername("John")))
  }

  /** The stream variant finds the same user. */
  lemma FindJohnVariantsAgree(users: seq<User>)
    ensures FindJohnStream(users) == FindJohn(users)
  {
    FirstOfFilter(users, WithUsername("John"));
  }

  // --------------------------------------------------------------- anyAdmins

  /** `tryFind(users, isAdmin).isPresent()`. */
  function AnyAdmins(users: seq<User>): (r: bool)
    ensures r <==> exists i :: 0 <= i < |users| && users[i].admin
  {
    FirstMatch(users, IsAdmin).Some?
  }

  /** `users.stream().anyMatch(user -> user.isAdmin())`. */
  function AnyAdminsStream(users: seq<User>): bool
  {
    AnyMatch(users, IsAdmin)
  }

  /** `anyMatch` and "first admin is present" agree. */
  lemma AnyAdminsVariantsAgree(users: seq<User>)
    ensures AnyAdminsStream(users) == AnyAdmins(users)
  {
    AnyMatchIsPresent(users, IsAdmin);
  }

  // ---------------------------------------------------------- adminUsernames

  /** `transform(filter(users, isAdmin), toUsername)`: the admins' usernames. */
  function AdminUsernames(users: seq<User>): (r: seq<string>)
    ensures |r| <= |users|
  {
    Map(Filter(users, IsAdmin), ToUsername)
  }

  /** A name is in the result exactly when some admin user has it. */
  lemma AdminUsernamesMembership(users: seq<User>, n: string)
    ensures n in AdminUsernames(users) <==> exists i :: 0 <= i < |users| && users[i].admin && users[i].username == n
  {
    MapFilterMembership(users, IsAdmin, ToUsername, n);
  }

  /** The usernames of a concatenation are those of each part, in order. */
  lemma AdminUsernamesAppend(a: seq<User>, b: seq<User>)
    ensures AdminUsernames(a + b) == AdminUsernames(a) + AdminUsernames(b)
  {
    FilterAppend(a, b, IsAdmin);
    MapAppend(Filter(a, IsAdmin), Filter(b, IsAdmin), ToUsername);
  }

  /** One user contributes its username exactly when it is an admin. */
  lemma AdminUsernamesOne(u: User)
    ensures AdminUsernames([u]) == if u.admin then [u.username] else []
  {
  }

  /** Extending the list by one user extends the usernames by that user's
      contribution. */
  lemma AdminUsernamesStep(users: seq<User>, i: nat)
    requires i < |users|
    ensures AdminUsernames(users[..i + 1]) == AdminUsernames(users[..i]) + (if users[i].admin then [users[i].username] else [])
  {
    assert users[..i + 1] == users[..i] + [users[i]];
    AdminUsernamesAppend(users[..i], [users[i]]);
    AdminUsernamesOne(users[i]);
  }

  // --------------------------------------------------------- anyRoleBarUsers

  /** The role names, in user order: `transform(transform(users, toRole), roleToName)`. */
  function RoleNames(users: seq<User>): (r: seq<string>)
    ensures |r| == |users|
    ensures forall i :: 0 <= i < |users| ==> r[i] == users[i].role.name
  {
    Map(Map(users, ToRole), RoleToName)
  }

  /** `tryFind(roleNames, isBar).isPresent()`: some role name is exactly "bar". */
  function AnyRoleBarUsers(users: seq<User>): (r: bool)
    ensures r <==> exists i :: 0 <= i < |users| && users[i].role.name == "bar"
  {
    FirstMatch(RoleNames(users), IsBar).Some?
  }

  /** `users.stream().map(User::getRole).map(Role::getName).anyMatch("bar"::equals)`. */
  function AnyRoleBarUsersStream(users: seq<User>): bool
  {
    AnyMatch(RoleNames(users), IsBar)
  }

  /** The stream variant gives the same answer. */
  lemma AnyRoleBarUsersVariantsAgree(users: seq<User>)
    ensures AnyRoleBarUsersStream(users) == AnyRoleBarUsers(users)
  {
    AnyMatchIsPresent(RoleNames(users), IsBar);
  }

  // -------------------------------------------------------- nonAdminFooRoles

  /** `filter(transform(filter(users, not(isAdmin)), toRole), contains("foo"))`. */
  function NonAdminFooRoles(users: seq<User>): (r: seq<Role>)
    ensures |r| <= |users|
  {
    Filter(Map(Filter(users, Not(IsAdmin)), ToRole), IsFooRole)
  }

  /** A role is in the result exactly when its name contains "foo" and some
      non-admin user has it. */
  lemma NonAdminFooRolesMembership(users: seq<User>, x: Role)
    ensures x in NonAdminFooRoles(users) <==>
            Strings.Contains(x.name, "foo") && exists i :: 0 <= i < |users| && !users[i].admin && users[i].role == x
  {
    FilterMapFilterMembership(users, Not(IsAdmin), ToRole, IsFooRole, x);
    var isAdmin := IsAdmin;
    if exists i :: 0 <= i < |users| && !users[i].admin && users[i].role == x {
      var i :| 0 <= i < |users| && !users[i].admin && users[i].role == x;
      assert !isAdmin(users[i]);
    }
    if x in NonAdminFooRoles(users) {
      var i :| 0 <= i < |users| && Not(IsAdmin)(users[i]) && ToRole(users[i]) == x;
      assert !isAdmin(users[i]);
    }
  }

  /** The roles of a concatenation are those of each part, in order. */
  lemma NonAdminFooRolesAppend(a: seq<User>, b: seq<User>)
    ensures NonAdminFooRoles(a + b) == NonAdminFooRoles(a) + NonAdminFooRoles(b)
  {
    FilterAppend(a, b, Not(IsAdmin));
    MapAppend(Filter(a, Not(IsAdmin)), Filter(b, Not(IsAdmin)), ToRole);
    FilterAppend(Map(Filter(a, Not(IsAdmin)), ToRole), Map(Filter(b, Not(IsAdmin)), ToRole), IsFooRole);
  }

  /** One user contributes its role exactly when it is not an admin and the
      role's name contains "foo". */
  lemma NonAdminFooRolesOne(u: User)
    ensures NonAdminFooRoles([u]) == if !u.admin && Strings.Contains(u.role.name, "foo") then [u.role] else []
  {
    var isAdmin := IsAdmin;
    assert Not(IsAdmin)(u) == !isAdmin(u);
    var kept := Filter([u], Not(IsAdmin));
    assert kept == if !u.admin then [u] else [];
    assert Map(kept, ToRole) == if !u.admin then [u.role] else [];
  }

  /** Extending the list by one user extends the roles by that user's
      contribution. */
  lemma NonAdminFooRolesStep(users: seq<User>, i: nat)
    requires i < |users|
    ensures NonAdminFooRoles(users[..i + 1]) ==
            NonAdminFooRoles(users[..i]) + (if !users[i].admin && Strings.Contains(users[i].role.name, "foo") then [users[i].role] else [])
  {
    assert users[..i + 1] == users[..i] + [users[i]];
    NonAdminFooRolesAppend(users[..i], [users[i]]);
    NonAdminFooRolesOne(users[i]);
  }

  // ------------------------------------------------------------ adminCGroups

  /** `from(users).filter(isAdmin).transformAndConcat(toGroups).filter(startsWith("c"))`,
      and the `Java8` `flatMap` chain. */
  function AdminCGroups(users: seq<User>): (r: seq<Group>)
    ensures forall i :: 0 <= i < |r| ==> Strings.StartsWith(r[i].name, "c")
  {
    var groups := FlatMap(Filter(users, IsAdmin), ToGroups);
    assert forall i :: 0 <= i < |Filter(groups, IsCGroup)| ==> IsCGroup(Filter(groups, IsCGroup)[i]) by {
      forall i | 0 <= i < |Filter(groups, IsCGroup)| ensures IsCGroup(Filter(groups, IsCGroup)[i]) {
        FilterMembership(groups, IsCGroup, Filter(groups, IsCGroup)[i]);
      }
    }
    Filter(groups, IsCGroup)
  }

  /** A group is in the result exactly when its name starts with "c" and it is
      one of an admin's groups. */
  lemma AdminCGroupsMembership(users: seq<User>, g: Group)
    ensures g in AdminCGroups(users) <==>
            Strings.StartsWith(g.name, "c") &&
            exists i, j :: 0 <= i < |users| && users[i].admin && 0 <= j < |users[i].groups| && users[i].groups[j] == g
  {
    FilterFlatMapFilterMembership(users, IsAdmin, ToGroups, IsCGroup, g);
    if exists i, j :: 0 <= i < |users| && users[i].admin && 0 <= j < |users[i].groups| && users[i].groups[j] == g {
      var i, j :| 0 <= i < |users| && users[i].admin && 0 <= j < |users[i].groups| && users[i].groups[j] == g;
      assert IsAdmin(users[i]) && 0 <= j < |ToGroups(users[i])| && ToGroups(users[i])[j] == g;
    }
  }

  /** `Iterables.filter(Iterables.concat(transform(filter(users, isAdmin), toGroups)), startsWith("c"))`:
      flatten the mapped group lists, then filter. */
  function AdminCGroupsConcat(users: seq<User>): seq<Group>
  {
    Filter(Flatten(Map(Filter(users, IsAdmin), ToGroups)), IsCGroup)
  }

  /** Flattening then filtering gives the same groups, in the same order. */
  lemma AdminCGroupsVariantsAgree(users: seq<User>)
    ensures AdminCGroupsConcat(users) == AdminCGroups(users)
  {
    FlatMapIsFlattenMap(Filter(users, IsAdmin), ToGroups);
  }

  /** Extending the list by one user extends the groups by that user's
      contribution. */
  lemma AdminCGroupsStep(users: seq<User>, i: nat)
    requires i < |users|
    ensures AdminCGroups(users[..i + 1]) == AdminCGroups(users[..i]) + (if users[i].admin then Filter(users[i].groups, IsCGroup) else [])
  {
    assert users[..i + 1] == users[..i] + [users[i]];
    AdminCGroupsAppend(users[..i], [users[i]]);
    AdminCGroupsOne(users[i]);
  }

  /** The "c" groups of one user, in order. */
  function CGroupsOf(u: User): seq<Group>
  {
    Filter(u.groups, IsCGroup)
  }

  /** The filter can be applied to each admin's groups before joining them:
      the result is user order, then group order within each user. */
  lemma AdminCGroupsPerUser(users: seq<User>)
    ensures AdminCGroups(users) == FlatMap(Filter(users, IsAdmin), CGroupsOf)
  {
    FilterFlatMap(Filter(users, IsAdmin), ToGroups, IsCGroup, CGroupsOf);
  }

  /** The groups of a concatenation are those of each part, in order. */
  lemma AdminCGroupsAppend(a: seq<User>, b: seq<User>)
    ensures AdminCGroups(a + b) == AdminCGroups(a) + AdminCGroups(b)
  {
    FilterAppend(a, b, IsAdmin);
    FlatMapAppend(Filter(a, IsAdmin), Filter(b, IsAdmin), ToGroups);
    FilterAppend(FlatMap(Filter(a, IsAdmin), ToGroups), FlatMap(Filter(b, IsAdmin), ToGroups), IsCGroup);
  }

  /** One user contributes its "c" groups, in order, exactly when it is an admin. */
  lemma AdminCGroupsOne(u: User)
    ensures AdminCGroups([u]) == if u.admin then Filter(u.groups, IsCGroup) else []
  {
    assert FlatMap([u], ToGroups) == u.groups + FlatMap([u][1..], ToGroups);
    assert u.groups + [] == u.groups;
  }

  // ---------------------------------------------------------- whole-catalog facts

  /** On an empty list nothing is found, both tests are false and every
      collection is empty. */
  lemma EmptyInput()
    ensures FindJohn([]) == None && !AnyAdmins([]) && !AnyRoleBarUsers([])
    ensures AdminUsernames([]) == [] && NonAdminFooRoles([]) == [] && AdminCGroups([]) == []
  {
  }

  // A worked example: a non-admin "Alice" with role "foobar" and no groups,
  // then an admin "John" with role "baz" and groups "core", "dev".

  const Alice := User("Alice", false, Role("foobar"), [])
  const John := User("John", true, Role("baz"), [Group("core"), Group("dev")])

  /** The search skips Alice and returns John. */
  lemma ExampleFindJohn()
    ensures FindJohn([Alice, John]) == Some(John)
  {
    assert [Alice, John][1..] == [John];
    assert !WithUsername("John")(Alice) && WithUsername("John")(John);
    assert FindIndex([John], WithUsername("John")) == Some(0);
    assert FindIndex([Alice, John], WithUsername("John")) == Some(1);
  }

  /** John is an admin; neither "foobar" nor "baz" is exactly "bar". */
  lemma ExampleTests()
    ensures AnyAdmins([Alice, John]) && !AnyRoleBarUsers([Alice, John])
  {
    IsBarIsExact();
    assert [Alice, John][1].admin;
  }

  /** Only John's username is collected. */
  lemma ExampleAdminUsernames()
    ensures AdminUsernames([Alice, John]) == ["John"]
  {
    assert [Alice, John] == [Alice] + [John];
    AdminUsernamesAppend([Alice], [John]);
  }

  /** Alice's role "foobar" contains "foo"; John is an admin and is skipped. */
  lemma ExampleNonAdminFooRoles()
    ensures NonAdminFooRoles([Alice, John]) == [Role("foobar")]
  {
    assert [Alice, John] == [Alice] + [John];
    NonAdminFooRolesAppend([Alice], [John]);
    NonAdminFooRolesOne(Alice);
    NonAdminFooRolesOne(John);
    Strings.FoobarContainsFoo();
  }

  /** Of John's groups only "core" starts with "c". */
  lemma ExampleAdminCGroups()
    ensures AdminCGroups([Alice, John]) == [Group("core")]
  {
    assert [Alice, John] == [Alice] + [John];
    AdminCGroupsAppend([Alice], [John]);
    AdminCGroupsOne(Alice);
    AdminCGroupsOne(John);
    assert John.groups == [Group("core")] + [Group("dev")];
    FilterAppend([Group("core")], [Group("dev")], IsCGroup);
    assert Strings.StartsWith("core", "c");
    assert !Strings.StartsWith("dev", "c");
  }
}

=== FILE: strings.dfy ===
/** The two `java.lang.String` tests the queries use, on strings as sequences
    of characters (case-sensitive, no normalisation). */
module Strings {

  /** `s.startsWith(prefix)`, compared character by character. */
  predicate StartsWith(s: string, prefix: string)
  {
    |prefix| == 0 || (|s| > 0 && s[0] == prefix[0] && StartsWith(s[1..], prefix[1..]))
  }

  /** Starting with `prefix` is exactly Dafny's prefix relation on sequences. */
  lemma {:induction false} StartsWithIsPrefix(s: string, prefix: string)
    ensures StartsWith(s, prefix) <==> prefix <= s
  {
    if |prefix| > 0 && |s| > 0 {
      StartsWithIsPrefix(s[1..], prefix[1..]);
      assert prefix == [prefix[0]] + prefix[1..];
      assert s == [s[0]] + s[1..];
    }
  }

  /** `sub` occurs in `s` at index `i`. */
  predicate OccursAt(s: string, sub: string, i: nat)
  {
    i + |sub| <= |s| && s[i..i + |sub|] == sub
  }

  /** `s.contains(sub)`: `sub` starts at the first position or somewhere later. */
  predicate Contains(s: string, sub: string)
    decreases |s|
  {
    StartsWith(s, sub) || (|s| > 0 && Contains(s[1..], sub))
  }

  /** `Contains` holds exactly when `sub` occurs at some index of `s`. */
  lemma {:induction false} ContainsIff(s: string, sub: string)
    ensures Contains(s, sub) <==> exists i: nat :: OccursAt(s, sub, i)
    decreases |s|
  {
    StartsWithIsPrefix(s, sub);
    if |s| > 0 {
      ContainsIff(s[1..], sub);
      if Contains(s, sub) {
        if StartsWith(s, sub) {
          assert OccursAt(s, sub, 0);
        } else {
          var i: nat :| OccursAt(s[1..], sub, i);
          assert s[1..][i..i + |sub|] == s[i + 1..i + 1 + |sub|];
          assert OccursAt(s, sub, i + 1);
        }
      }
      if exists i: nat :: OccursAt(s, sub, i) {
        var i: nat :| OccursAt(s, sub, i);
        if i > 0 {
          assert s[1..][i - 1..i - 1 + |sub|] == s[i..i + |sub|];
          assert OccursAt(s[1..], sub, i - 1);
        }
      }
    } else if |sub| == 0 {
      assert OccursAt(s, sub, 0);
    }
  }

  /** "foobar" and "foo" contain "foo"; "baz" does not. */
  lemma FoobarContainsFoo()
    ensures Contains("foobar", "foo") && Contains("foo", "foo")
    ensures !Contains("baz", "foo")
  {
    assert "foobar"[0] == 'f';
  }
}

=== FILE: wrappers.dfy ===
/** The optional value that Guava's `Optional` and `java.util.Optional` stand for;
    a `null` returned by the hand-written loops is `None` here. */
module Wrappers {

  datatype Option<+T> = None | Some(value: T)
}
